=== FILE: README.md ===
# Audio controller of Gemstone Cascade, in Dafny

This project models the game's audio controller (`AudioManager`), the one
stateful component of the game: a volume table with the categories
`master`, `music`, `sfx` and `ui`; a registry from sound keys to sound
handles; the current background track; and the `muted` and `initialized`
flags. Every public call is a pure transition over an immutable
`AudioManager.Manager` record:

- volume writes are clamped to [0,1] and saved to the settings store;
- a key's category is found by substring matching, and "music" is tested first;
- the effective gain of a sound is `multiplier * category gain * master gain`;
- one-shot playback (`playSFX`, `playUI`) does nothing when the controller is
  uninitialised or muted, or when the key is unknown;
- `playMusic` makes a track current and fades out the previous one;
  `stopMusic` forgets the current track;
- `toggleMute` pauses or resumes the current track;
- `destroy` empties the registry but keeps the gains and the mute flag;
- saved settings are laid over the defaults when a controller is built.

Modules, leaf first:

- `Wrappers` (`wrappers.dfy`): `Option`.
- `Text` (`text.dfy`): `includes`, proved equal to "some index starts a copy
  of the pattern".
- `Volumes` (`volumes.dfy`): the volume table, `Clamp`, `getVolume`'s read,
  the classifier and `getVolumeForSound`.
- `Handles` (`handles.dfy`): abstract sound handles with four fields:
  `isPlaying`, `paused`, `volume` and `looping`. The playback library is not
  part of this model, so its rules are stated here. `play` starts a sound at
  a given gain, looping or not. `pause` acts only on a playing sound.
  `resume` acts only on a paused sound. `stop` leaves a sound neither playing
  nor paused. A sound that does not loop ends by itself in that same state.
- `AudioManager` (`audio_manager.dfy`): the controller state, its invariant
  `Valid` and one function per public method.
- `Cues` (`cues.dfy`): the one-line convenience methods, `playMatch` among them.
- `Session` (`session.dfy`): any sequence of calls and engine events,
  starting from any store contents. Every state it reaches is `Valid`, and
  the gains in its volume table stay in [0,1] when the store's gains were in
  [0,1].
- `AudioProperties` (`properties.dfy`): lemmas relating several calls.

Time is not modelled. A fade is a pending `Tween` in the state. Its
completion is a separate event, `CompleteTween`. The end of a sound's
playback is another event, `SoundEnded`: a playing sound that does not loop
stops by itself. Effects never loop, because `playSFX` passes no `loop`
option. Music loops unless asked for `loop: false`. A fade-in leaves the handle
at the target gain. A fade-out leaves it at gain 0 and stopped. The durable
store is one `Stored` value: absent, malformed, or a parsed record whose
fields may be missing. Handles live in a heap keyed by `HandleId`, a key
plus a serial number. A handle that was replaced in the registry, or is
fading out, therefore keeps its own state.

Some behaviours of the code are proved as lemmas. They are proved as the
code behaves, not as a reader might expect:

- A track chosen with `playMusic` while muted becomes current but is never
  started. Unmuting calls `resume`, which does nothing on a sound that was
  never paused, so the track stays silent (`MutedStartStaysSilent`).
- With a scene bound and when not muted, calling `playMusic` with the key of
  the track already playing restarts that track. It also schedules the
  track's own fade-out, so the current track is stopped when that fade ends
  (`ReplayingCurrentTrackStopsIt`).
- A play request with `volume: 0` plays at full multiplier, because the
  multiplier is read with `||` (`ZeroMultiplierPlaysAtFullGain`).

Two more behaviours of the code:

- Without a scene, `fadeInMusic` starts the track at gain 0 and never ramps
  it (src/audio/AudioManager.js:253-266).
- A failed settings read leaves the table and the flag as they were, and
  nothing is reset (src/audio/AudioManager.js:370-379). Because the read
  happens only in the constructor, this is the same as keeping the defaults.

## Model

| member | source | states |
|---|---|---|
| `Text.Includes` | src/audio/AudioManager.js:294-296 | `key.includes(p)` holds exactly when some index of the key starts a copy of `p` |
| `Volumes.Clamp` | src/audio/AudioManager.js:307 | the stored value lies in [0,1]; it equals the input inside [0,1], 0 below and 1 above |
| `Volumes.Gain` | src/audio/AudioManager.js:316 | reading a category gives its stored gain, or 0 for a category never written |
| `Volumes.Classify` | src/audio/AudioManager.js:293-301 | a key is music iff it contains "music"; it is UI iff it does not and contains "button", "menu" or "ui"; otherwise it is an effect |
| `Volumes.VolumeForSound` | src/audio/AudioManager.js:293-301 | the gain of a key is music×master, ui×master or sfx×master under the three substring conditions, with "music" tested first |
| `Volumes.VolumeForSoundInUnitRange` | src/audio/AudioManager.js:293-301 | when every stored gain is in [0,1], so is the effective gain of every key |
| `Volumes.MusicKeysClassification` | src/audio/AudioManager.js:143-145 | the two music keys of the registration list, "menu-music" and "game-music", are music tracks; "menu-music" is music even though it also contains "menu" |
| `Volumes.SfxKeysClassification` | src/audio/AudioManager.js:146-148 | the ten effect keys of the registration list classify as effects |
| `Volumes.UiKeysClassification` | src/audio/AudioManager.js:149-150 | the three UI keys of the registration list classify as UI |
| `AudioManager.OrDefault` | src/audio/AudioManager.js:179 | the multiplier `config.volume` or-ed with 1 is the requested value, and 1 when the multiplier is missing or 0 |
| `AudioManager.LoadSettings` | src/audio/AudioManager.js:369-380 | saved gains override the table key by key and other keys keep their value; `muted` becomes true only for a saved `true`; an absent or unreadable record changes nothing |
| `AudioManager.SaveSettings` | src/audio/AudioManager.js:358-364 | the store afterwards holds the current table and mute flag, and nothing else changes (read back by `AudioProperties.SettingsRoundTrip`) |
| `AudioManager.Create` | src/audio/AudioManager.js:8-34 | a new controller is valid, has an empty registry, no current track, is not initialised; without saved settings it has gains 1.0/0.7/0.8/0.6 and is unmuted |
| `AudioManager.Reapplied` | src/audio/AudioManager.js:342-353 | the current track, unless muted, gets music×master; another registered, non-playing sound gets its key's gain; every other handle is left unchanged; only the gain ever changes, never the play state or the loop flag |
| `AudioManager.ApplyVolumeSettings` | src/audio/AudioManager.js:342-353 | only handle gains change, each as `Reapplied` says, and the invariant is kept |
| `AudioManager.Init` | src/audio/AudioManager.js:46-54 | init binds the scene, sets `initialized` and reapplies gains; nothing else changes, so registry, current track, mute, table and tweens are kept |
| `AudioManager.RegisterSound` | src/audio/AudioManager.js:153-162 | a created sound is registered under a new handle at the key's gain; a failed creation changes nothing |
| `AudioManager.CreateSounds` | src/audio/AudioManager.js:142-165 | registration only touches the registry and the handles, never alters an existing handle, and keeps the invariant |
| `AudioProperties.CreateSoundsKeys` | src/audio/AudioManager.js:153-162 | afterwards the registry holds its old keys plus exactly the keys whose creation succeeded |
| `AudioProperties.CreateSoundsKeepsOthers` | src/audio/AudioManager.js:153-162 | a key that was not created keeps the handle it had |
| `AudioProperties.CreateSoundsEntries` | src/audio/AudioManager.js:155-158 | every created key maps to a handle that did not exist before, created silent at the key's effective gain |
| `AudioManager.PlayOneShot` | src/audio/AudioManager.js:170-210 | uninitialised, muted or unknown key: nothing changes; otherwise only that key's handle changes, now playing at multiplier×category×master, looping as the caller says |
| `AudioManager.PlaySfx` | src/audio/AudioManager.js:170-192 | uninitialised, muted or unknown key: nothing changes; otherwise only that key's handle changes: it plays once (no `loop` is passed) at multiplier×sfx×master; the invariant is kept |
| `AudioManager.PlayUi` | src/audio/AudioManager.js:197-210 | uninitialised, muted or unknown key: nothing changes; otherwise only that key's handle changes: it plays at multiplier×ui×master and loops exactly when the caller's options say `loop: true`; the invariant is kept |
| `AudioManager.SoundEnded` | src/audio/AudioManager.js:182-188 | the end of a sound's playback changes only that handle: a playing handle that does not loop is left neither playing nor paused; the invariant is kept |
| `AudioManager.FadeOutMusic` | src/audio/AudioManager.js:272-288 | a silent track is left alone; a playing one gets a fade-out with a scene, or is stopped at once without one |
| `AudioManager.FadeInMusic` | src/audio/AudioManager.js:250-267 | the track starts at gain 0, looping unless the request says `loop: false`; with a scene a fade-in to multiplier×music×master over 1000 ms is scheduled |
| `AudioManager.MusicLoops` | src/audio/AudioManager.js:255 | a track loops unless the request's `loop` is exactly false |
| `AudioManager.FadeOutCurrent` | src/audio/AudioManager.js:224-227 | a playing current track gets one fade-out over 1000 ms with a scene, or is stopped without one; a silent one and every other handle are left alone |
| `AudioManager.PlayMusic` | src/audio/AudioManager.js:215-235 | uninitialised or unknown key: nothing changes; otherwise the key's handle becomes current even while muted; the tweens gain a fade-out of the previous track if it was playing and, when not muted, a fade-in to multiplier×music×master, both only with a scene; without a scene a playing previous track is stopped; the new track is started at gain 0 only when not muted; every other handle, mute, table and registry are kept; the invariant is kept |
| `AudioManager.StopMusic` | src/audio/AudioManager.js:240-245 | the current track is forgotten at once; a playing one gets a fade-out over 500 ms with a scene, or is stopped without one; no other handle changes |
| `AudioManager.CompleteTween` | src/audio/AudioManager.js:259-284 | an ending fade-in leaves its handle at the target gain; an ending fade-out leaves it at 0 and stopped, with its loop flag kept; nothing else changes |
| `AudioManager.Destroy` | src/audio/AudioManager.js:385-394 | the registry is empty, `initialized` false and the current track none; the current track's fade-out from `stopMusic` is scheduled; every registered sound is stopped at its gain; other handles are kept, except an unregistered current track that `stopMusic` stops; table, mute and store are kept |
| `AudioManager.SetVolume` | src/audio/AudioManager.js:306-310 | the category holds the clamped value; every other category keeps its gain; the gains are reapplied and the table is saved; nothing else in the controller changes, the scene binding included |
| `AudioManager.GetVolume` | src/audio/AudioManager.js:315-317 | the stored gain of a known category, 0 for an unknown one |
| `AudioManager.ToggleMute` | src/audio/AudioManager.js:322-337 | returns and stores the negated flag; the current track stays the same; it is paused on mute and resumed on unmute; the settings are saved; nothing else in the controller changes, the scene binding included |
| `Cues.MatchKey` | src/audio/AudioManager.js:399-402 | five or more gems give "match-5", exactly four "match-4", any other count below five, fractional ones included, "match-3" |
| `Cues.PlayCue` | src/audio/AudioManager.js:397-410 | a convenience cue is a one-shot on its channel and keeps the invariant |
| `Cues.CueKeyRegistered` | src/audio/AudioManager.js:397-410 | every cue names a key of the registration list |
| `Cues.CueChannelMatchesCategory` | src/audio/AudioManager.js:397-410 | UI cues have UI keys and effect cues have effect keys, so a sound is played at the gain of the category it was created with |
| `Session.Step` | src/audio/AudioManager.js:46-394 | every public call, every tween completion and every end of playback keeps the invariant and keeps the volume table's gains in [0,1] |
| `Session.RunValid` | src/audio/AudioManager.js:8-34 | every state reachable from construction satisfies the invariant |
| `Session.RunInUnitRange` | src/audio/AudioManager.js:306-310 | starting from stored gains in [0,1], no reachable state holds a table gain outside [0,1] (handle gains are not bounded: a multiplier above 1 is not clamped) |
| `AudioProperties.SettingsRoundTrip` | src/audio/AudioManager.js:358-380 | saving and then constructing a controller over the same store reproduces the table and the mute flag |
| `AudioProperties.SetVolumeSurvivesReload` | src/audio/AudioManager.js:306-310 | a gain set with `setVolume` is read back, clamped, by a controller constructed later |
| `AudioProperties.GetAfterSetVolume` | src/audio/AudioManager.js:306-317 | `getVolume` after `setVolume` gives the clamped value for that category and the old value for the others |
| `AudioProperties.ApplyVolumeSettingsIdempotent` | src/audio/AudioManager.js:342-353 | reapplying gains twice is the same as reapplying once |
| `AudioProperties.SfxDefaultGainIsKeyGain` | src/audio/AudioManager.js:170-192 | an effect played with default options gets the key's effective gain under the current table |
| `AudioProperties.UiDefaultGainIsKeyGain` | src/audio/AudioManager.js:197-210 | a UI sound played with default options gets the key's effective gain under the current table |
| `AudioProperties.PlayOneShotDependsOnMultiplierOnly` | src/audio/AudioManager.js:179 | two play requests whose multipliers read the same after or-ing with 1 have the same effect |
| `AudioProperties.ZeroMultiplierPlaysAtFullGain` | src/audio/AudioManager.js:179-203 | a request with volume 0 plays exactly like one with no volume |
| `AudioProperties.DefaultMatchGain` | src/audio/AudioManager.js:399-402 | with the default table a three-gem match plays "match-3" at gain 0.8 |
| `AudioProperties.ToggleMuteTwice` | src/audio/AudioManager.js:322-337 | toggling twice restores the flag, the current track and every handle (when the current track is not playing under mute); only the saved settings change |
| `AudioProperties.MutedStartStaysSilent` | src/audio/AudioManager.js:215-235 | a silent track chosen while muted is current after unmute but still not playing |
| `AudioProperties.PlayMusicFadesOutPrevious` | src/audio/AudioManager.js:224-227 | with a scene, muted or not, `playMusic` adds exactly one fade-out for the previous current track if it was playing, and none for any other handle |
| `AudioProperties.SwitchTracks` | src/audio/AudioManager.js:215-235 | switching from track A to track B: B is current at once, A still plays, and A has exactly one pending fade-out, so it is stopped once |
| `AudioProperties.ReplayingCurrentTrackStopsIt` | src/audio/AudioManager.js:224-233 | replaying the current track keeps it current but schedules its own fade-out, which leaves it stopped |
| `AudioProperties.StopMusicStopsAtFadeEnd` | src/audio/AudioManager.js:240-245 | after `stopMusic` no track is current but the old one still plays; when its fade-out ends it is stopped |
| `AudioProperties.StopMusicIdempotent` | src/audio/AudioManager.js:240-245 | a second `stopMusic` changes nothing |
| `AudioProperties.PlayedEffectEnds` | src/audio/AudioManager.js:179-188 | an effect never loops, so when it reaches its end it is neither playing nor paused |
| `AudioProperties.DefaultMusicKeepsPlaying` | src/audio/AudioManager.js:250-257 | a track started with default options loops, so the end of playback does not stop it |
| `AudioProperties.EndedSoundTakesNewGain` | src/audio/AudioManager.js:343-346 | a registered sound other than the current track keeps its gain through `setVolume` while playing; once it has ended, `setVolume` gives it its key's gain under the new table |
| `AudioProperties.DestroyedIsSilent` | src/audio/AudioManager.js:385-394 | after `destroy`, `playSFX`, `playUI` and `playMusic` change nothing |

## Left out

- `preloadAudio`: asset-loader calls with file paths. They are I/O and carry no logic.
- `createSounds`' calls into the sound manager: handle creation is a parameter saying which keys fail. A key that fails is skipped.
- `getInstance` and the singleton check in the constructor: the model works on one explicit controller value.
- `init(scene)` with a missing scene: `Init` always binds a scene.
- Logging through `console.*`.
- `localStorage` and JSON text: the store is the abstract `Stored` value, and the storage key is not modelled.
- Settings whose `volumes` field is not an object, or whose `muted` field is a truthy value that is not a boolean.
- Floating point: gains are `real`. IEEE rounding of the products is not modelled, and neither is NaN, which would pass through `Math.max`/`Math.min` and read as 0 under `|| 0`.
- Volume-table keys that JavaScript resolves through the object prototype, such as "toString".
- Play options other than the volume multiplier and `loop` (`rate`, `detune`, `seek`, `delay`, and the rest of `playUI`'s config): handles have no fields for them. A `loop` option that is not a boolean is not modelled.
- Sound durations: when a sound reaches its end is not modelled; `SoundEnded` may arrive at any time for any handle.
- Exceptions thrown by a handle's `play` inside `playSFX` and `playUI`, which those two methods catch: `play` is modelled as always succeeding.
- Exceptions thrown by uncaught handle calls: `play` in `fadeInMusic`, `pause` and `resume` in `toggleMute`, `stop` in `fadeOutMusic`, and `setVolume` in `applyVolumeSettings`. In the source such an exception escapes the public method part-way, for example out of `playMusic` after `currentMusic` has been replaced and the old track's fade-out scheduled. The model has every handle call succeed.
- Tween timing and easing: only the end of a fade is modelled. Its intermediate gains are not. Fades pending on the same handle may complete in any order.
- A sound's `destroy` is modelled as `stop`. Releasing its resources is not modelled. A tween that ends after `destroy` still acts on the stopped handle.
- `Volumes.VolumeForSound`: a category missing from the table reads as gain 0 rather than JavaScript's NaN. `AudioManager.Valid` shows that the four categories are always present, so the difference never shows.
- `AudioManager.PlayOneShot`: it also does nothing when a registered key's handle is missing from the heap. This case exists only to keep the function total, and `AudioManager.Valid` rules it out.
- `AudioManager.SaveSettings`: the write is modelled as always succeeding. `saveSettings` does not catch a failing `localStorage.setItem`, so in the source such a failure escapes `setVolume` and `toggleMute` after the table, the flag and the handles have changed, and the store keeps its old contents. `AudioProperties.SetVolumeSurvivesReload` holds only for a write that succeeds.
- `Cues.MatchKey`: the gem count is a `real`. NaN, which gives "match-3" in the source, is not modelled. Neither are non-number arguments, which JavaScript coerces before comparing.
- `AudioManager.PlayMusic`: it starts the track only when the track's handle is in the heap. This case exists only to keep the function total, and `AudioManager.Valid` rules it out.
- `src/scenes/MainMenu.js`, `src/main.js` and `jest.config.js` are not part of this model. They hold scene layout, game configuration and test configuration, and none of them uses the audio controller.

=== FILE: audio_manager.dfy ===
/**
 * The audio controller: one immutable record per controller state and one
 * pure transition per public operation. Timed volume ramps are pending
 * tweens that complete later as separate events; the durable store is a
 * single optional record the controller reads at construction and writes
 * after every volume or mute change.
 */
module AudioManager {
  import opened Wrappers
  import opened Volumes
  import opened Handles

  /** Length of a music fade, in milliseconds. */
  const MusicFadeTime: nat := 1000

  /** A running volume ramp on a handle. A fade-in ends at its target gain;
      a fade-out ends at gain 0 and then stops the handle. */
  datatype Tween =
    | FadeIn(target: HandleId, to: real, duration: nat)
    | FadeOut(target: HandleId, duration: nat)

  /** What the durable store yields under the settings key: nothing, text that
      does not parse to a settings object, or a parsed object whose fields may
      be missing. */
  datatype Stored =
    | Absent
    | Malformed
    | Saved(volumes: Option<VolumeTable>, muted: Option<bool>)

  /** The per-call options of a play request that reach the model: the gain
      multiplier and the loop flag. */
  datatype Config = Config(volume: Option<real>, loop: Option<bool>)

  datatype Manager = Manager(
    volumes: VolumeTable,
    sounds: map<string, HandleId>,
    handles: map<HandleId, Handle>,  // every handle ever created, registered or not
    current: Option<HandleId>,
    muted: bool,
    initialized: bool,
    sceneBound: bool,                // a scene has been given to `init`, so tweens can run
    tweens: seq<Tween>,
    nextSerial: nat,
    store: Stored)

  /** JavaScript's `x || d` on an optional number: a missing or zero `x` gives `d`. */
  function OrDefault(x: Option<real>, default: real): (r: real)
    ensures x.Some? && x.value != 0.0 ==> r == x.value
    ensures x == None || x == Some(0.0) ==> r == default
  {
    if x.Some? && x.value != 0.0 then x.value else default
  }

  /** `id` is the handle the registry currently holds for its key. */
  predicate Registered(s: Manager, id: HandleId) {
    id.key in s.sounds && s.sounds[id.key] == id
  }

  predicate IsPlaying(s: Manager, id: HandleId) {
    id in s.handles && s.handles[id].isPlaying
  }

  /** There is a current track and it is playing. */
  predicate CurrentPlaying(s: Manager) {
    s.current.Some? && IsPlaying(s, s.current.value)
  }

  /** The invariant every reachable controller state keeps. */
  predicate Valid(s: Manager) {
    && HasCategories(s.volumes)
    && (forall k :: k in s.sounds ==> s.sounds[k] in s.handles && s.sounds[k].key == k)
    && (s.current.Some? ==> s.current.value in s.handles)
    && (forall i :: 0 <= i < |s.tweens| ==> s.tweens[i].target in s.handles)
    && (forall id :: id in s.handles ==> id.serial < s.nextSerial && Coherent(s.handles[id]))
    // Outside mute the current track is never left paused.
    && (!s.muted && s.current.Some? ==> !s.handles[s.current.value].paused)
  }

  // ---------------------------------------------------------------------------
  // Construction and settings

  /** The constructor's fields, before it loads the saved settings. */
  function Fresh(store: Stored): (r: Manager)
    ensures Valid(r)
  {
    Manager(Defaults, map[], map[], None, false, false, false, [], 0, store)
  }

  /** `loadSettings`: overlays saved gains on the table and takes `muted || false`;
      an absent or unreadable record changes nothing. */
  function LoadSettings(s: Manager): (r: Manager)
    ensures r == s.(volumes := r.volumes, muted := r.muted)
    ensures !s.store.Saved? ==> r == s
    ensures s.store.Saved? ==> r.muted == (s.store.muted == Some(true))
    ensures s.store.Saved? ==>
      r.volumes.Keys == s.volumes.Keys + s.store.volumes.GetOr(map[]).Keys
    ensures s.store.Saved? ==>
      forall c :: c in r.volumes ==>
        r.volumes[c] == if c in s.store.volumes.GetOr(map[])
                        then s.store.volumes.GetOr(map[])[c] else s.volumes[c]
  {
    match s.store
    case Saved(saved, muted) =>
      s.(volumes := s.volumes + saved.GetOr(map[]), muted := muted == Some(true))
    case _ => s
  }

  /** The constructor: defaults, then whatever the store holds. */
  function Create(store: Stored): (r: Manager)
    ensures Valid(r)
    ensures r.sounds == map[] && r.handles == map[] && r.current == None && r.tweens == []
    ensures !r.initialized && !r.sceneBound && r.store == store
    ensures !store.Saved? ==> r.volumes == Defaults && !r.muted
    ensures store.Saved? ==> r.muted == (store.muted == Some(true))
  {
    LoadSettings(Fresh(store))
  }

  /** `saveSettings`: the store now holds the table and the mute flag. */
  function SaveSettings(s: Manager): (r: Manager)
    ensures r == s.(store := Saved(Some(s.volumes), Some(s.muted)))
  {
    s.(store := Saved(Some(s.volumes), Some(s.muted)))
  }

  // ---------------------------------------------------------------------------
  // Lifecycle and registration

  /** The gain `applyVolumeSettings` leaves on one handle: the current track,
      unless muted, takes the music gain; any other registered sound that is
      not playing takes its key's effective gain; the rest keep theirs. */
  function Reapplied(s: Manager, id: HandleId): (h: Handle)
    requires id in s.handles
    ensures h == s.handles[id].(volume := h.volume)
    ensures h.isPlaying == s.handles[id].isPlaying && h.paused == s.handles[id].paused
    ensures s.current == Some(id) && !s.muted ==>
      h.volume == Gain(s.volumes, "music") * Gain(s.volumes, "master")
    ensures (s.current != Some(id) || s.muted) && Registered(s, id) && !s.handles[id].isPlaying ==>
      h.volume == VolumeForSound(s.volumes, id.key)
    ensures (s.current != Some(id) || s.muted) && (!Registered(s, id) || s.handles[id].isPlaying) ==>
      h == s.handles[id]
  {
    if s.current == Some(id) && !s.muted
    then WithVolume(s.handles[id], Gain(s.volumes, "music") * Gain(s.volumes, "master"))
    else if Registered(s, id) && !s.handles[id].isPlaying
    then WithVolume(s.handles[id], VolumeForSound(s.volumes, id.key))
    else s.handles[id]
  }

  /** `applyVolumeSettings`: every registered sound that is not playing takes
      its key's effective gain; then the current track, unless muted, takes
      the music gain. Playing sounds that are not the current track keep their gain. */
  function ApplyVolumeSettings(s: Manager): (r: Manager)
    ensures r == s.(handles := r.handles)
    ensures r.handles.Keys == s.handles.Keys
    ensures forall id :: id in s.handles ==> r.handles[id] == Reapplied(s, id)
    ensures Valid(s) ==> Valid(r)
  {
    var r := s.(handles := map id | id in s.handles :: Reapplied(s, id));
    assert Valid(s) ==> Valid(r) by {
      if Valid(s) && s.current.Some? {
        assert r.handles[s.current.value].paused == s.handles[s.current.value].paused;
      }
    }
    r
  }

  /** `init(scene)`: binds the scene, marks the controller initialised and
      reapplies the gains. Nothing else is reset. */
  function Init(s: Manager): (r: Manager)
    ensures r.initialized && r.sceneBound
    ensures r == s.(handles := r.handles, initialized := true, sceneBound := true)
    ensures r.volumes == s.volumes && r.sounds == s.sounds && r.current == s.current
    ensures r.muted == s.muted && r.tweens == s.tweens && r.store == s.store
    ensures r.handles == ApplyVolumeSettings(s).handles
    ensures Valid(s) ==> Valid(r)
  {
    ApplyVolumeSettings(s).(initialized := true, sceneBound := true)
  }

  /** One step of `createSounds`: when the sound can be created, a fresh handle
      at the key's effective gain replaces whatever the key held. */
  function RegisterSound(s: Manager, key: string, created: bool): (r: Manager)
    ensures !created ==> r == s
    ensures created ==> r.sounds == s.sounds[key := HandleId(key, s.nextSerial)]
    ensures created ==>
      r.handles == s.handles[HandleId(key, s.nextSerial) := Created(VolumeForSound(s.volumes, key))]
    ensures r == s.(sounds := r.sounds, handles := r.handles, nextSerial := r.nextSerial)
    ensures s.nextSerial <= r.nextSerial
    ensures Valid(s) ==> HandleId(key, s.nextSerial) !in s.handles
    ensures Valid(s) ==> Valid(r)
  {
    if !created then s
    else
      var id := HandleId(key, s.nextSerial);
      s.(sounds := s.sounds[key := id],
         handles := s.handles[id := Created(VolumeForSound(s.volumes, key))],
         nextSerial := s.nextSerial + 1)
  }

  /** `createSounds`: registers each key in turn; a key whose creation fails
      (one in `failed`) is skipped and leaves the registry as it was. */
  function CreateSounds(s: Manager, keys: seq<string>, failed: set<string>): (r: Manager)
    ensures r == s.(sounds := r.sounds, handles := r.handles, nextSerial := r.nextSerial)
    ensures s.nextSerial <= r.nextSerial
    ensures Valid(s) ==> forall id :: id in s.handles ==> id in r.handles && r.handles[id] == s.handles[id]
    ensures Valid(s) ==> Valid(r)
    decreases |keys|
  {
    if keys == [] then s
    else CreateSounds(RegisterSound(s, keys[0], keys[0] !in failed), keys[1..], failed)
  }

  /** `destroy`: stops the music, stops every registered sound, empties the
      registry and clears `initialized`; gains and mute survive. */
  function Destroy(s: Manager): (r: Manager)
    ensures r.sounds == map[] && !r.initialized && r.current == None
    ensures r == s.(sounds := map[], initialized := false, current := None,
                    handles := r.handles, tweens := r.tweens)
    ensures r.handles.Keys == s.handles.Keys
    // The current track's fade-out from `stopMusic` is still scheduled.
    ensures r.tweens ==
      s.tweens + if CurrentPlaying(s) && s.sceneBound then [FadeOut(s.current.value, MusicFadeTime / 2)] else []
    ensures forall id :: id in s.handles && Registered(s, id) ==> r.handles[id] == Stop(s.handles[id])
    ensures forall id :: id in s.handles && !Registered(s, id) && s.current != Some(id) ==>
      r.handles[id] == s.handles[id]
    // A current track that is no longer registered is stopped only by `stopMusic`.
    ensures s.current.Some? && s.current.value in s.handles && !Registered(s, s.current.value) ==>
      r.handles[s.current.value] ==
        if CurrentPlaying(s) && !s.sceneBound then Stop(s.handles[s.current.value])
        else s.handles[s.current.value]
    ensures Valid(s) ==> Valid(r)
  {
    var s1 := StopMusic(s);
    s1.(handles := StopRegistered(s1.sounds, s1.handles), sounds := map[], initialized := false)
  }

  /** Every handle the registry holds is stopped; the others are kept. */
  function StopRegistered(sounds: map<string, HandleId>, handles: map<HandleId, Handle>): (r: map<HandleId, Handle>)
    ensures r.Keys == handles.Keys
    ensures forall id :: id in handles && id.key in sounds && sounds[id.key] == id ==> r[id] == Stop(handles[id])
    ensures forall id :: id in handles && !(id.key in sounds && sounds[id.key] == id) ==> r[id] == handles[id]
  {
    map id | id in handles :: if id.key in sounds && sounds[id.key] == id then Stop(handles[id]) else handles[id]
  }

  // ---------------------------------------------------------------------------
  // One-shot playback

  /** `playSFX` / `playUI`: plays the key's handle at
      `(config.volume || 1) * category gain * master gain`, looping as
      `looping` says; does nothing when uninitialised, muted or given an
      unregistered key. */
  function PlayOneShot(s: Manager, key: string, config: Config, category: string, looping: bool): (r: Manager)
    ensures !s.initialized || s.muted || key !in s.sounds ==> r == s
    ensures r == s.(handles := r.handles) && r.handles.Keys == s.handles.Keys
    ensures s.initialized && !s.muted && key in s.sounds && s.sounds[key] in s.handles ==>
      && r.handles[s.sounds[key]].isPlaying
      && !r.handles[s.sounds[key]].paused
      && r.handles[s.sounds[key]].looping == looping
      && r.handles[s.sounds[key]].volume ==
         OrDefault(config.volume, 1.0) * Gain(s.volumes, category) * Gain(s.volumes, "master")
    ensures forall id :: id in s.handles && (key !in s.sounds || id != s.sounds[key]) ==>
      r.handles[id] == s.handles[id]
    ensures Valid(s) ==> Valid(r)
  {
    if !s.initialized || s.muted || key !in s.sounds || s.sounds[key] !in s.handles then s
    else
      var id := s.sounds[key];
      var gain := OrDefault(config.volume, 1.0) * Gain(s.volumes, category) * Gain(s.volumes, "master");
      s.(handles := s.handles[id := Play(s.handles[id], gain, looping)])
  }

  /** `playSFX` builds its own play options without `loop`, so an effect always plays once. */
  function PlaySfx(s: Manager, key: string, config: Config): (r: Manager)
    ensures !s.initialized || s.muted || key !in s.sounds ==> r == s
    ensures r == s.(handles := r.handles) && r.handles.Keys == s.handles.Keys
    ensures forall id :: id in s.handles && (key !in s.sounds || id != s.sounds[key]) ==>
      r.handles[id] == s.handles[id]
    ensures s.initialized && !s.muted && key in s.sounds && s.sounds[key] in s.handles ==>
      r.handles[s.sounds[key]] ==
        Play(s.handles[s.sounds[key]],
             OrDefault(config.volume, 1.0) * Gain(s.volumes, "sfx") * Gain(s.volumes, "master"), false)
    ensures Valid(s) ==> Valid(r)
  {
    PlayOneShot(s, key, config, "sfx", false)
  }

  /** `playUI` passes the caller's options on, `loop` included. */
  function PlayUi(s: Manager, key: string, config: Config): (r: Manager)
    ensures !s.initialized || s.muted || key !in s.sounds ==> r == s
    ensures r == s.(handles := r.handles) && r.handles.Keys == s.handles.Keys
    ensures forall id :: id in s.handles && (key !in s.sounds || id != s.sounds[key]) ==>
      r.handles[id] == s.handles[id]
    ensures s.initialized && !s.muted && key in s.sounds && s.sounds[key] in s.handles ==>
      r.handles[s.sounds[key]] ==
        Play(s.handles[s.sounds[key]],
             OrDefault(config.volume, 1.0) * Gain(s.volumes, "ui") * Gain(s.volumes, "master"),
             config.loop == Some(true))
    ensures Valid(s) ==> Valid(r)
  {
    PlayOneShot(s, key, config, "ui", config.loop == Some(true))
  }

  /** The end of playback on one handle, reported by the playback library: a
      playing handle that does not loop stops by itself. */
  function SoundEnded(s: Manager, id: HandleId): (r: Manager)
    ensures r == s.(handles := r.handles) && r.handles.Keys == s.handles.Keys
    ensures forall h :: h in s.handles && h != id ==> r.handles[h] == s.handles[h]
    ensures id in s.handles ==> r.handles[id] == Ended(s.handles[id])
    ensures Valid(s) ==> Valid(r)
  {
    if id in s.handles then s.(handles := s.handles[id := Ended(s.handles[id])]) else s
  }

  // ---------------------------------------------------------------------------
  // Music

  /** `fadeOutMusic`: a playing track gets a ramp to 0 that stops it at the
      end; without a scene it is stopped at once; a silent track is left alone. */
  function FadeOutMusic(s: Manager, id: HandleId, duration: nat): (r: Manager)
    ensures !IsPlaying(s, id) ==> r == s
    ensures IsPlaying(s, id) && s.sceneBound ==>
      r == s.(tweens := s.tweens + [FadeOut(id, duration)])
    ensures IsPlaying(s, id) && !s.sceneBound ==>
      r == s.(handles := s.handles[id := Stop(s.handles[id])])
    ensures Valid(s) ==> Valid(r)
  {
    if !IsPlaying(s, id) then s
    else if s.sceneBound then s.(tweens := s.tweens + [FadeOut(id, duration)])
    else s.(handles := s.handles[id := Stop(s.handles[id])])
  }

  /** `fadeInMusic`: starts the track at gain 0, looping unless the request
      says `loop: false`, and, with a scene, ramps it to
      `(config.volume || 1) * music * master` over the fade time. */
  function FadeInMusic(s: Manager, id: HandleId, config: Config): (r: Manager)
    requires id in s.handles
    ensures r.handles == s.handles[id := Play(s.handles[id], 0.0, MusicLoops(config))]
    ensures s.sceneBound ==>
      r.tweens == s.tweens + [FadeIn(id, MusicTarget(s, config), MusicFadeTime)]
    ensures !s.sceneBound ==> r.tweens == s.tweens
    ensures r == s.(handles := r.handles, tweens := r.tweens)
  {
    var s1 := s.(handles := s.handles[id := Play(s.handles[id], 0.0, MusicLoops(config))]);
    if s.sceneBound then s1.(tweens := s1.tweens + [FadeIn(id, MusicTarget(s, config), MusicFadeTime)])
    else s1
  }

  /** `config.loop !== false`: only an explicit `false` turns looping off. */
  function MusicLoops(config: Config): (b: bool)
    ensures !b <==> config.loop == Some(false)
  {
    config.loop != Some(false)
  }

  /** The gain a music fade-in aims at. */
  function MusicTarget(s: Manager, config: Config): real {
    OrDefault(config.volume, 1.0) * Gain(s.volumes, "music") * Gain(s.volumes, "master")
  }

  /** `playMusic`: when initialised and given a registered key, fades out the
      current track if it is playing, makes the key's handle current even while
      muted, and starts it only when not muted. */
  function PlayMusic(s: Manager, key: string, config: Config): (r: Manager)
    ensures !s.initialized || key !in s.sounds ==> r == s
    ensures r == s.(current := r.current, handles := r.handles, tweens := r.tweens)
    ensures r.handles.Keys == s.handles.Keys
    ensures s.initialized && key in s.sounds ==> r.current == Some(s.sounds[key])
    // With a scene: a fade-out of the previous track when it was playing, then
    // a fade-in of the new one when not muted.
    ensures s.initialized && key in s.sounds ==>
      r.tweens ==
        s.tweens
        + (if CurrentPlaying(s) && s.sceneBound then [FadeOut(s.current.value, MusicFadeTime)] else [])
        + (if !s.muted && s.sceneBound && s.sounds[key] in s.handles
           then [FadeIn(s.sounds[key], MusicTarget(s, config), MusicFadeTime)] else [])
    // Without a scene the previous track, when playing, is stopped at once.
    ensures s.initialized && key in s.sounds && s.current.Some? && s.current.value in s.handles &&
            s.current.value != s.sounds[key] ==>
      r.handles[s.current.value] ==
        if CurrentPlaying(s) && !s.sceneBound then Stop(s.handles[s.current.value])
        else s.handles[s.current.value]
    ensures s.initialized && key in s.sounds ==>
      forall id :: id in s.handles && id != s.sounds[key] && Some(id) != s.current ==>
        r.handles[id] == s.handles[id]
    ensures s.initialized && key in s.sounds && !s.muted && s.sounds[key] in s.handles ==>
      r.handles[s.sounds[key]] == Play(s.handles[s.sounds[key]], 0.0, MusicLoops(config))
    // Under mute the track is not started. It can only be stopped, when it was
    // itself the playing current track and no scene is bound.
    ensures s.initialized && key in s.sounds && s.muted && s.sounds[key] in s.handles ==>
      r.handles[s.sounds[key]] ==
        if s.current == Some(s.sounds[key]) && CurrentPlaying(s) && !s.sceneBound
        then Stop(s.handles[s.sounds[key]])
        else s.handles[s.sounds[key]]
    ensures Valid(s) ==> Valid(r)
  {
    if !s.initialized || key !in s.sounds then s
    else
      var id := s.sounds[key];
      var s2 := FadeOutCurrent(s).(current := Some(id));
      assert MusicTarget(s2, config) == MusicTarget(s, config);
      if !s.muted && id in s2.handles then FadeInMusic(s2, id, config) else s2
  }

  /** The first half of `playMusic`: the current track, when playing, fades
      out over the full fade time. */
  function FadeOutCurrent(s: Manager): (r: Manager)
    ensures r == s.(handles := r.handles, tweens := r.tweens)
    ensures r.handles.Keys == s.handles.Keys
    ensures r.tweens ==
      s.tweens + if CurrentPlaying(s) && s.sceneBound then [FadeOut(s.current.value, MusicFadeTime)] else []
    ensures forall id :: id in s.handles && Some(id) != s.current ==> r.handles[id] == s.handles[id]
    ensures s.current.Some? && s.current.value in s.handles ==>
      r.handles[s.current.value] ==
        if CurrentPlaying(s) && !s.sceneBound then Stop(s.handles[s.current.value])
        else s.handles[s.current.value]
    ensures Valid(s) ==> Valid(r)
  {
    if CurrentPlaying(s) then FadeOutMusic(s, s.current.value, MusicFadeTime) else s
  }

  /** `stopMusic`: fades the current track out over half the fade time and
      forgets it at once; the handle stops when the fade ends. */
  function StopMusic(s: Manager): (r: Manager)
    ensures r.current == None
    ensures r == s.(current := None, handles := r.handles, tweens := r.tweens)
    ensures r.volumes == s.volumes && r.sounds == s.sounds && r.muted == s.muted
    ensures r.initialized == s.initialized && r.store == s.store && r.sceneBound == s.sceneBound
    ensures r.handles.Keys == s.handles.Keys
    ensures s.current.None? || !IsPlaying(s, s.current.value) ==>
      r.handles == s.handles && r.tweens == s.tweens
    ensures s.current.Some? && IsPlaying(s, s.current.value) && s.sceneBound ==>
      r.handles == s.handles && r.tweens == s.tweens + [FadeOut(s.current.value, MusicFadeTime / 2)]
    ensures s.current.Some? && IsPlaying(s, s.current.value) && !s.sceneBound ==>
      r.handles == s.handles[s.current.value := Stop(s.handles[s.current.value])] && r.tweens == s.tweens
    ensures Valid(s) ==> Valid(r)
  {
    if s.current.None? then s
    else FadeOutMusic(s, s.current.value, MusicFadeTime / 2).(current := None)
  }

  /** A pending tween runs to its end: a fade-in leaves its handle at the
      target gain, a fade-out at gain 0 and stopped. */
  function CompleteTween(s: Manager, i: nat): (r: Manager)
    requires i < |s.tweens|
    ensures r.tweens == s.tweens[..i] + s.tweens[i + 1..]
    ensures r == s.(handles := r.handles, tweens := r.tweens)
    ensures r.handles.Keys == s.handles.Keys
    ensures forall id :: id in s.handles && id != s.tweens[i].target ==> r.handles[id] == s.handles[id]
    ensures s.tweens[i].FadeIn? && s.tweens[i].target in s.handles ==>
      r.handles[s.tweens[i].target] == WithVolume(s.handles[s.tweens[i].target], s.tweens[i].to)
    ensures s.tweens[i].FadeOut? && s.tweens[i].target in s.handles ==>
      r.handles[s.tweens[i].target] == Stop(WithVolume(s.handles[s.tweens[i].target], 0.0))
    ensures Valid(s) ==> Valid(r)
  {
    var t := s.tweens[i];
    var rest := s.tweens[..i] + s.tweens[i + 1..];
    if t.target !in s.handles then s.(tweens := rest)
    else
      var h := s.handles[t.target];
      match t
      case FadeIn(id, to, _) => s.(handles := s.handles[id := WithVolume(h, to)], tweens := rest)
      case FadeOut(id, _) => s.(handles := s.handles[id := Stop(WithVolume(h, 0.0))], tweens := rest)
  }

  // ---------------------------------------------------------------------------
  // Volume and mute

  /** `setVolume`: stores the clamped gain under the category, reapplies the
      gains and saves. */
  function SetVolume(s: Manager, category: string, value: real): (r: Manager)
    ensures r == s.(volumes := r.volumes, handles := r.handles, store := r.store)
    ensures r.volumes.Keys == s.volumes.Keys + {category}
    ensures r.volumes[category] == Clamp(value)
    ensures forall c :: c in s.volumes && c != category ==> r.volumes[c] == s.volumes[c]
    ensures r.sounds == s.sounds && r.current == s.current && r.muted == s.muted
    ensures r.initialized == s.initialized && r.tweens == s.tweens
    ensures r.store == Saved(Some(r.volumes), Some(r.muted))
    ensures r.handles == ApplyVolumeSettings(s.(volumes := r.volumes)).handles
    ensures Valid(s) ==> Valid(r)
  {
    SaveSettings(ApplyVolumeSettings(s.(volumes := s.volumes[category := Clamp(value)])))
  }

  /** `getVolume`: the stored gain of a category, 0 for one never written. */
  function GetVolume(s: Manager, category: string): (r: real)
    ensures category in s.volumes ==> r == s.volumes[category]
    ensures category !in s.volumes ==> r == 0.0
  {
    Gain(s.volumes, category)
  }

  /** `toggleMute`: flips the flag, pauses the current track on mute and
      resumes it on unmute, saves, and returns the new flag. */
  function ToggleMute(s: Manager): (r: (Manager, bool))
    ensures r.1 == !s.muted && r.0.muted == r.1
    ensures r.0 == s.(muted := r.0.muted, handles := r.0.handles, store := r.0.store)
    ensures r.0.current == s.current
    ensures r.0.volumes == s.volumes && r.0.sounds == s.sounds && r.0.tweens == s.tweens
    ensures r.0.initialized == s.initialized
    ensures r.0.store == Saved(Some(s.volumes), Some(r.1))
    ensures s.current.Some? && s.current.value in s.handles ==>
      r.0.handles == s.handles[s.current.value :=
        if r.1 then Pause(s.handles[s.current.value]) else Resume(s.handles[s.current.value])]
    ensures s.current.None? ==> r.0.handles == s.handles
    ensures Valid(s) ==> Valid(r.0)
  {
    var muted := !s.muted;
    var handles :=
      if s.current.Some? && s.current.value in s.handles then
        var id := s.current.value;
        s.handles[id := if muted then Pause(s.handles[id]) else Resume(s.handles[id])]
      else s.handles;
    var s' := SaveSettings(s.(muted := muted, handles := handles));
    (s', s'.muted)
  }
}

=== FILE: cues.dfy ===
/**
 * The convenience cues the game triggers. Each names a fixed key and goes
 * through the one-shot path of its channel; a match cue picks its key from
 * the size of the match.
 */
module Cues {
  import opened Wrappers
  import opened Volumes
  import opened AudioManager

  datatype Cue =
    | GemSelect | GemSwap | Match(gemCount: real) | Cascade | Achievement
    | PowerUp | LevelComplete | GameOver
    | ButtonHover | ButtonClick | MenuTransition

  /** `playMatch`: five or more gems sound "match-5", exactly four "match-4",
      anything else "match-3". The count is any number, so a fractional count
      between 4 and 5 also sounds "match-3". */
  function MatchKey(gemCount: real): (key: string)
    ensures key == "match-5" <==> gemCount >= 5.0
    ensures key == "match-4" <==> gemCount == 4.0
    ensures key == "match-3" <==> gemCount < 5.0 && gemCount != 4.0
  {
    if gemCount >= 5.0 then "match-5" else if gemCount == 4.0 then "match-4" else "match-3"
  }

  /** The three button/menu cues go through `playUI`; the rest through `playSFX`. */
  predicate IsUiCue(c: Cue) {
    c.ButtonHover? || c.ButtonClick? || c.MenuTransition?
  }

  function CueKey(c: Cue): string {
    match c
    case GemSelect => "gem-select"
    case GemSwap => "gem-swap"
    case Match(n) => MatchKey(n)
    case Cascade => "cascade"
    case Achievement => "achievement"
    case PowerUp => "power-up"
    case LevelComplete => "level-complete"
    case GameOver => "game-over"
    case ButtonHover => "button-hover"
    case ButtonClick => "button-click"
    case MenuTransition => "menu-transition"
  }

  /** Triggers a cue with the default options. */
  function PlayCue(s: Manager, c: Cue): (r: Manager)
    ensures Valid(s) ==> Valid(r)
  {
    if IsUiCue(c) then PlayUi(s, CueKey(c), Config(None, None))
    else PlaySfx(s, CueKey(c), Config(None, None))
  }

  /** Every cue names one of the keys the game registers. */
  lemma CueKeyRegistered(c: Cue)
    ensures CueKey(c) in SoundKeys
  {
    var k := CueKey(c);
    if IsUiCue(c) {
      assert k in UiKeys;
    } else {
      assert k in SfxKeys by {
        if c.Match? {
          assert k in {"match-3", "match-4", "match-5"};
        }
      }
    }
    assert k in SoundKeys by {
      assert forall x :: x in SfxKeys + UiKeys ==> x in SoundKeys;
    }
  }

  /**
   * The channel a cue plays on is the category its key classifies into, so
   * the gain a sound is created with and the gain it is played at come from
   * the same table entry.
   */
  lemma CueChannelMatchesCategory(c: Cue)
    ensures IsUiCue(c) ==> Classify(CueKey(c)) == Ui
    ensures !IsUiCue(c) ==> Classify(CueKey(c)) == Sfx
  {
    if IsUiCue(c) {
      assert CueKey(c) in UiKeys;
      UiKeysClassification();
    } else {
      assert CueKey(c) in SfxKeys by {
        if c.Match? {
          assert CueKey(c) in {"match-3", "match-4", "match-5"};
        }
      }
      SfxKeysClassification();
    }
  }
}

=== FILE: handles.dfy ===
/**
 * Abstract sound handles. The playback library behind them is not part of this
 * model; a handle is reduced to whether it is playing, whether it is paused,
 * its current gain and whether it loops, and its operations follow the
 * library's documented rules: pause acts only on a playing sound, resume only
 * on a paused one, stop leaves a sound neither playing nor paused, and a sound
 * that does not loop ends, as if stopped, when it reaches its end.
 */
module Handles {

  /** A handle is created for one key; the serial tells re-creations apart. */
  datatype HandleId = HandleId(key: string, serial: nat)

  datatype Handle = Handle(isPlaying: bool, paused: bool, volume: real, looping: bool)

  /** A sound is never both playing and paused. */
  predicate Coherent(h: Handle) {
    !(h.isPlaying && h.paused)
  }

  /** A freshly created sound: silent, at the gain it was created with, and
      added without a loop option. */
  function Created(volume: real): (h: Handle)
    ensures !h.isPlaying && !h.paused && h.volume == volume && !h.looping
  {
    Handle(false, false, volume, false)
  }

  /** `play({volume, loop, ...})`: (re)starts the sound at the given gain,
      looping or not as the request says. */
  function Play(h: Handle, volume: real, looping: bool): (r: Handle)
    ensures r.isPlaying && !r.paused && r.volume == volume && r.looping == looping
  {
    Handle(true, false, volume, looping)
  }

  function Pause(h: Handle): (r: Handle)
    ensures r.volume == h.volume && r.looping == h.looping
    ensures h.isPlaying && !h.paused ==> !r.isPlaying && r.paused
    ensures !h.isPlaying || h.paused ==> r == h
    ensures Coherent(h) ==> Coherent(r)
  {
    if h.paused || !h.isPlaying then h else h.(isPlaying := false, paused := true)
  }

  function Resume(h: Handle): (r: Handle)
    ensures r.volume == h.volume && r.looping == h.looping
    ensures h.paused && !h.isPlaying ==> r.isPlaying && !r.paused
    ensures !h.paused || h.isPlaying ==> r == h
    ensures Coherent(h) ==> Coherent(r)
  {
    if !h.paused || h.isPlaying then h else h.(isPlaying := true, paused := false)
  }

  function Stop(h: Handle): (r: Handle)
    ensures !r.isPlaying && !r.paused && r.volume == h.volume && r.looping == h.looping
  {
    h.(isPlaying := false, paused := false)
  }

  /** The library's end-of-playback event: a playing sound that does not loop
      stops by itself; a looping, paused or silent one is unaffected. */
  function Ended(h: Handle): (r: Handle)
    ensures h.isPlaying && !h.looping ==> !r.isPlaying && !r.paused
    ensures !h.isPlaying || h.looping ==> r == h
    ensures r.volume == h.volume && r.looping == h.looping
    ensures Coherent(h) ==> Coherent(r)
  {
    if h.isPlaying && !h.looping then Stop(h) else h
  }

  /** `setVolume(v)` on the handle. */
  function WithVolume(h: Handle, volume: real): (r: Handle)
    ensures r.isPlaying == h.isPlaying && r.paused == h.paused && r.volume == volume
    ensures r.looping == h.looping
  {
    h.(volume := volume)
  }
}

=== FILE: properties.dfy ===
/**
 * Properties that relate several calls of the audio controller: registration,
 * the settings round trip, mute toggling, track switching, teardown and the
 * effective gains of one-shot sounds.
 */
module AudioProperties {
  import opened Wrappers
  import opened Volumes
  import opened Handles
  import opened AudioManager
  import Cues

  // ---------------------------------------------------------------------------
  // Registration

  /** `createSounds` registers exactly the keys whose creation succeeds. */
  lemma {:induction false} CreateSoundsKeys(s: Manager, keys: seq<string>, failed: set<string>)
    ensures CreateSounds(s, keys, failed).sounds.Keys ==
      s.sounds.Keys + (set k | k in keys && k !in failed)
    decreases |keys|
  {
    if keys != [] {
      var s1 := RegisterSound(s, keys[0], keys[0] !in failed);
      CreateSoundsKeys(s1, keys[1..], failed);
      assert forall k :: k in keys <==> k == keys[0] || k in keys[1..];
    }
  }

  /** A key that is not created keeps the handle it had. */
  lemma {:induction false} CreateSoundsKeepsOthers(s: Manager, keys: seq<string>, failed: set<string>)
    ensures var r := CreateSounds(s, keys, failed);
      forall k :: k in s.sounds && (k !in keys || k in failed) ==> k in r.sounds && r.sounds[k] == s.sounds[k]
    decreases |keys|
  {
    if keys != [] {
      CreateSoundsKeepsOthers(RegisterSound(s, keys[0], keys[0] !in failed), keys[1..], failed);
    }
  }

  /** Each successfully created key is registered under a new handle created
      at the key's effective gain. */
  lemma {:induction false} CreateSoundsEntries(s: Manager, keys: seq<string>, failed: set<string>)
    requires Valid(s)
    ensures var r := CreateSounds(s, keys, failed);
      forall k :: k in keys && k !in failed ==>
        k in r.sounds && r.sounds[k] !in s.handles && r.sounds[k] in r.handles &&
        r.handles[r.sounds[k]] == Created(VolumeForSound(s.volumes, k))
    decreases |keys|
  {
    if keys != [] {
      var s1 := RegisterSound(s, keys[0], keys[0] !in failed);
      CreateSoundsEntries(s1, keys[1..], failed);
      CreateSoundsKeepsOthers(s1, keys[1..], failed);
      var r := CreateSounds(s1, keys[1..], failed);
      forall k | k in keys && k !in failed && k !in keys[1..]
        ensures k in r.sounds && r.sounds[k] !in s.handles && r.sounds[k] in r.handles
        ensures r.handles[r.sounds[k]] == Created(VolumeForSound(s.volumes, k))
      {
        assert k == keys[0];
        assert s1.sounds[k] == HandleId(k, s.nextSerial);
      }
    }
  }

  // ---------------------------------------------------------------------------
  // Settings

  /** Saving and then constructing a new controller over the same store
      reproduces the gains and the mute flag. */
  lemma SettingsRoundTrip(s: Manager)
    requires Valid(s)
    ensures Create(SaveSettings(s).store).volumes == s.volumes
    ensures Create(SaveSettings(s).store).muted == s.muted
  {
    var r := Create(SaveSettings(s).store);
    assert r.volumes.Keys == s.volumes.Keys;
  }

  /** A gain written with `setVolume` is what a controller constructed later
      over the same store reads back. */
  lemma SetVolumeSurvivesReload(s: Manager, category: string, value: real)
    requires Valid(s)
    ensures GetVolume(Create(SetVolume(s, category, value).store), category) == Clamp(value)
  {
    var s1 := SetVolume(s, category, value);
    SettingsRoundTrip(s1);
  }

  /** `getVolume` after `setVolume` on the same controller: the clamped value
      for that category, the old value for every other. */
  lemma GetAfterSetVolume(s: Manager, category: string, value: real, other: string)
    requires other != category
    ensures GetVolume(SetVolume(s, category, value), category) == Clamp(value)
    ensures GetVolume(SetVolume(s, category, value), other) == GetVolume(s, other)
  {
  }

  // ---------------------------------------------------------------------------
  // Gains

  /** Reapplying the gains a second time changes nothing. */
  lemma ApplyVolumeSettingsIdempotent(s: Manager)
    ensures ApplyVolumeSettings(ApplyVolumeSettings(s)) == ApplyVolumeSettings(s)
  {
    var r := ApplyVolumeSettings(s);
    var r2 := ApplyVolumeSettings(r);
    assert r == s.(handles := r.handles);
    forall id | id in r.handles
      ensures r2.handles[id] == r.handles[id]
    {
      ReappliedIdempotent(s, r, id);
    }
    assert r2.handles == r.handles;
  }

  lemma ReappliedIdempotent(s: Manager, r: Manager, id: HandleId)
    requires r == ApplyVolumeSettings(s) && id in s.handles
    ensures Reapplied(r, id) == r.handles[id]
  {
    assert r == s.(handles := r.handles);
    assert r.handles[id] == Reapplied(s, id);
    assert Registered(r, id) == Registered(s, id);
  }

  /** A one-shot effect played with default options gets the same gain the
      effect's handle was created with. */
  lemma SfxDefaultGainIsKeyGain(s: Manager, key: string)
    requires Valid(s) && s.initialized && !s.muted && key in s.sounds
    requires Classify(key) == Sfx
    ensures PlaySfx(s, key, Config(None, None)).handles[s.sounds[key]].volume == VolumeForSound(s.volumes, key)
  {
  }

  lemma UiDefaultGainIsKeyGain(s: Manager, key: string)
    requires Valid(s) && s.initialized && !s.muted && key in s.sounds
    requires Classify(key) == Ui
    ensures PlayUi(s, key, Config(None, None)).handles[s.sounds[key]].volume == VolumeForSound(s.volumes, key)
  {
  }

  /** Because the multiplier is read with `||`, asking for volume 0 plays the
      sound exactly as asking for no multiplier at all. */
  lemma ZeroMultiplierPlaysAtFullGain(s: Manager, key: string)
    ensures PlaySfx(s, key, Config(Some(0.0), None)) == PlaySfx(s, key, Config(None, None))
    ensures PlayUi(s, key, Config(Some(0.0), None)) == PlayUi(s, key, Config(None, None))
  {
    assert OrDefault(Some(0.0), 1.0) == OrDefault(None, 1.0);
    PlayOneShotDependsOnMultiplierOnly(s, key, Config(Some(0.0), None), Config(None, None), "sfx", false);
    PlayOneShotDependsOnMultiplierOnly(s, key, Config(Some(0.0), None), Config(None, None), "ui", false);
  }

  lemma PlayOneShotDependsOnMultiplierOnly(s: Manager, key: string, c1: Config, c2: Config, category: string, looping: bool)
    requires OrDefault(c1.volume, 1.0) == OrDefault(c2.volume, 1.0)
    ensures PlayOneShot(s, key, c1, category, looping) == PlayOneShot(s, key, c2, category, looping)
  {
    if s.initialized && !s.muted && key in s.sounds && s.sounds[key] in s.handles {
      PlayedHandles(s, key, c1, category, looping);
      PlayedHandles(s, key, c2, category, looping);
      var g1 := OrDefault(c1.volume, 1.0) * Gain(s.volumes, category) * Gain(s.volumes, "master");
      var g2 := OrDefault(c2.volume, 1.0) * Gain(s.volumes, category) * Gain(s.volumes, "master");
      assert g1 == g2;
      assert Play(s.handles[s.sounds[key]], g1, looping) == Play(s.handles[s.sounds[key]], g2, looping);
    }
  }

  lemma PlayedHandles(s: Manager, key: string, c: Config, category: string, looping: bool)
    requires s.initialized && !s.muted && key in s.sounds && s.sounds[key] in s.handles
    ensures PlayOneShot(s, key, c, category, looping) ==
      s.(handles := s.handles[s.sounds[key] := Play(s.handles[s.sounds[key]],
           OrDefault(c.volume, 1.0) * Gain(s.volumes, category) * Gain(s.volumes, "master"), looping)])
  {
  }

  /** With the default table, a three-gem match plays "match-3" at the
      effect gain 0.8 times the master gain 1.0. */
  lemma DefaultMatchGain(s: Manager)
    requires Valid(s) && s.initialized && !s.muted && "match-3" in s.sounds
    requires s.volumes == Defaults
    ensures Cues.PlayCue(s, Cues.Match(3.0)).handles[s.sounds["match-3"]].volume == 0.8
  {
    assert Cues.CueKey(Cues.Match(3.0)) == "match-3";
    assert Gain(s.volumes, "sfx") == 0.8 && Gain(s.volumes, "master") == 1.0;
  }

  // ---------------------------------------------------------------------------
  // Mute

  /**
   * Toggling mute twice restores the flag, the current track and every
   * handle, provided the current track is not playing while muted. The only
   * trace left is the saved settings.
   */
  lemma ToggleMuteTwice(s: Manager)
    requires Valid(s)
    requires s.muted && s.current.Some? ==> !s.handles[s.current.value].isPlaying
    ensures var (once, m1) := ToggleMute(s);
      var (twice, m2) := ToggleMute(once);
      && m1 == !s.muted && m2 == s.muted
      && twice == SaveSettings(s)
  {
    var (once, m1) := ToggleMute(s);
    var (twice, m2) := ToggleMute(once);
    assert twice.handles == s.handles;
  }

  /**
   * `playMusic` while muted makes the track current without starting it, and
   * unmuting only resumes a paused track: a track that was silent when chosen
   * under mute stays silent after unmute.
   */
  lemma MutedStartStaysSilent(s: Manager, key: string, config: Config)
    requires Valid(s) && s.initialized && s.muted && key in s.sounds
    requires !s.handles[s.sounds[key]].isPlaying && !s.handles[s.sounds[key]].paused
    ensures var r := ToggleMute(PlayMusic(s, key, config)).0;
      && !r.muted
      && r.current == Some(s.sounds[key])
      && !r.handles[s.sounds[key]].isPlaying
  {
  }

  // ---------------------------------------------------------------------------
  // Music switching

  /** The number of pending fade-outs on a handle: each one stops it once. */
  function FadeOutsOf(tweens: seq<Tween>, id: HandleId): (n: nat)
    ensures n <= |tweens|
    ensures n == 0 <==> forall i :: 0 <= i < |tweens| ==> !(tweens[i].FadeOut? && tweens[i].target == id)
    decreases |tweens|
  {
    if tweens == [] then 0
    else
      var last := tweens[|tweens| - 1];
      FadeOutsOf(tweens[..|tweens| - 1], id) + if last.FadeOut? && last.target == id then 1 else 0
  }

  lemma FadeOutsOfAppend(tweens: seq<Tween>, t: Tween, id: HandleId)
    ensures FadeOutsOf(tweens + [t], id) ==
      FadeOutsOf(tweens, id) + (if t.FadeOut? && t.target == id then 1 else 0)
  {
    assert (tweens + [t])[..|tweens|] == tweens;
  }

  /**
   * With a scene bound, muted or not, `playMusic` gives the previous current
   * track exactly one fade-out when it was playing, and no other handle any.
   * Without a scene the previous track is stopped at once instead, as
   * `PlayMusic` itself states.
   */
  lemma PlayMusicFadesOutPrevious(s: Manager, key: string, config: Config, id: HandleId)
    requires Valid(s) && s.initialized && s.sceneBound && key in s.sounds
    ensures FadeOutsOf(PlayMusic(s, key, config).tweens, id) ==
      FadeOutsOf(s.tweens, id) + if s.current == Some(id) && IsPlaying(s, id) then 1 else 0
  {
    var nu := s.sounds[key];
    var t1 := s.tweens + if CurrentPlaying(s) then [FadeOut(s.current.value, MusicFadeTime)] else [];
    if CurrentPlaying(s) {
      FadeOutsOfAppend(s.tweens, FadeOut(s.current.value, MusicFadeTime), id);
    } else {
      assert t1 == s.tweens;
    }
    if !s.muted {
      FadeOutsOfAppend(t1, FadeIn(nu, MusicTarget(s, config), MusicFadeTime), id);
    } else {
      assert PlayMusic(s, key, config).tweens == t1;
    }
  }

  /**
   * Switching from track A to track B before A's fade ends: B is current
   * at once, A is still playing, and A has exactly one pending fade-out,
   * so it receives exactly one stop.
   */
  lemma SwitchTracks(s: Manager, a: string, b: string, ca: Config, cb: Config)
    requires Valid(s) && s.initialized && s.sceneBound && !s.muted
    requires a in s.sounds && b in s.sounds && s.sounds[a] != s.sounds[b]
    requires s.current != Some(s.sounds[a])
    requires FadeOutsOf(s.tweens, s.sounds[a]) == 0
    ensures var r := PlayMusic(PlayMusic(s, a, ca), b, cb);
      && r.current == Some(s.sounds[b])
      && r.handles[s.sounds[a]].isPlaying
      && FadeOutsOf(r.tweens, s.sounds[a]) == 1
  {
    var ha := s.sounds[a];
    var s1 := PlayMusic(s, a, ca);
    PlayMusicFadesOutPrevious(s, a, ca, ha);
    assert FadeOutsOf(s1.tweens, ha) == 0;
    assert s1.current == Some(ha) && IsPlaying(s1, ha);
    PlayMusicFadesOutPrevious(s1, b, cb, ha);
  }

  /**
   * `playMusic` with the key of the track already playing restarts it and
   * also schedules its fade-out; when that fade ends the current track is
   * stopped although it is still the current one.
   */
  lemma ReplayingCurrentTrackStopsIt(s: Manager, key: string, config: Config)
    requires Valid(s) && s.initialized && s.sceneBound && !s.muted
    requires key in s.sounds && s.current == Some(s.sounds[key]) && IsPlaying(s, s.sounds[key])
    ensures var r := PlayMusic(s, key, config);
      && r.current == Some(s.sounds[key])
      && |r.tweens| == |s.tweens| + 2
      && r.tweens[|s.tweens|] == FadeOut(s.sounds[key], MusicFadeTime)
      && var done := CompleteTween(r, |s.tweens|);
         done.current == Some(s.sounds[key]) && !done.handles[s.sounds[key]].isPlaying
  {
  }

  /**
   * `stopMusic` forgets a playing track at once, but the track keeps playing
   * until its fade-out ends; then it is stopped. A second `stopMusic` has
   * nothing left to do.
   */
  lemma StopMusicStopsAtFadeEnd(s: Manager)
    requires Valid(s) && s.sceneBound && s.current.Some? && IsPlaying(s, s.current.value)
    ensures var r := StopMusic(s);
      && r.current == None
      && r.handles[s.current.value].isPlaying
      && |r.tweens| == |s.tweens| + 1
      && var done := CompleteTween(r, |s.tweens|);
         !done.handles[s.current.value].isPlaying && !done.handles[s.current.value].paused
  {
  }

  lemma StopMusicIdempotent(s: Manager)
    ensures StopMusic(StopMusic(s)) == StopMusic(s)
  {
  }

  // ---------------------------------------------------------------------------
  // Sounds that end by themselves

  /** An effect never loops, so once it reaches its end it is neither playing
      nor paused, the state `stop` leaves. */
  lemma PlayedEffectEnds(s: Manager, key: string, config: Config)
    requires Valid(s) && s.initialized && !s.muted && key in s.sounds
    ensures var r := SoundEnded(PlaySfx(s, key, config), s.sounds[key]);
      !r.handles[s.sounds[key]].isPlaying && !r.handles[s.sounds[key]].paused
  {
  }

  /** A track started without `loop: false` loops, so reaching its end does
      not stop it. */
  lemma DefaultMusicKeepsPlaying(s: Manager, key: string)
    requires Valid(s) && s.initialized && !s.muted && key in s.sounds
    ensures var r := PlayMusic(s, key, Config(None, None));
      r.handles[s.sounds[key]].isPlaying && SoundEnded(r, s.sounds[key]) == r
  {
  }

  /**
   * A registered sound that is not the current track keeps its gain through
   * `setVolume` while it plays; once it has ended, `setVolume` gives it its
   * key's effective gain under the new table.
   */
  lemma EndedSoundTakesNewGain(s: Manager, id: HandleId, category: string, value: real)
    requires Valid(s) && Registered(s, id) && s.current != Some(id)
    requires IsPlaying(s, id) && !s.handles[id].looping
    ensures SetVolume(s, category, value).handles[id] == s.handles[id]
    ensures var r := SetVolume(SoundEnded(s, id), category, value);
      !r.handles[id].isPlaying && r.handles[id].volume == VolumeForSound(r.volumes, id.key)
  {
  }

  // ---------------------------------------------------------------------------
  // Teardown

  /** After `destroy` no playback call has any effect. */
  lemma DestroyedIsSilent(s: Manager, key: string, config: Config)
    ensures PlaySfx(Destroy(s), key, config) == Destroy(s)
    ensures PlayUi(Destroy(s), key, config) == Destroy(s)
    ensures PlayMusic(Destroy(s), key, config) == Destroy(s)
  {
  }
}

=== FILE: session.dfy ===
/**
 * A session: the controller built from whatever the store holds, followed by
 * any sequence of public calls and tween completions. Every state reached
 * this way keeps the controller invariant, and the gains in the volume table
 * stay in [0,1] as long as the store held gains in [0,1]. Handle gains are
 * not bounded: a play multiplier above 1 is not clamped.
 */
module Session {
  import opened Wrappers
  import opened Volumes
  import Handles
  import AudioManager
  import Cues

  /** The calls a host can make, plus the two events the engine reports: the
      completion of a pending tween and the end of a sound's playback. */
  datatype Op =
    | Init
    | CreateSounds(keys: seq<string>, failed: set<string>)
    | PlaySfx(key: string, config: AudioManager.Config)
    | PlayUi(key: string, config: AudioManager.Config)
    | PlayCue(cue: Cues.Cue)
    | PlayMusic(key: string, config: AudioManager.Config)
    | StopMusic
    | SetVolume(category: string, value: real)
    | ToggleMute
    | Destroy
    | CompleteTween(index: nat)
    | SoundEnded(id: Handles.HandleId)

  function Step(s: AudioManager.Manager, op: Op): (r: AudioManager.Manager)
    ensures AudioManager.Valid(s) ==> AudioManager.Valid(r)
    ensures InUnitRange(s.volumes) ==> InUnitRange(r.volumes)
  {
    match op
    case Init => AudioManager.Init(s)
    case CreateSounds(keys, failed) => AudioManager.CreateSounds(s, keys, failed)
    case PlaySfx(key, config) => AudioManager.PlaySfx(s, key, config)
    case PlayUi(key, config) => AudioManager.PlayUi(s, key, config)
    case PlayCue(cue) => Cues.PlayCue(s, cue)
    case PlayMusic(key, config) => AudioManager.PlayMusic(s, key, config)
    case StopMusic => AudioManager.StopMusic(s)
    case SetVolume(category, value) => AudioManager.SetVolume(s, category, value)
    case ToggleMute => AudioManager.ToggleMute(s).0
    case Destroy => AudioManager.Destroy(s)
    // A tween that is not pending cannot complete.
    case CompleteTween(i) =>
      if i < |s.tweens| then AudioManager.CompleteTween(s, i) else s
    case SoundEnded(id) => AudioManager.SoundEnded(s, id)
  }

  /** The state after constructing a controller over `store` and applying `ops`. */
  function Run(store: AudioManager.Stored, ops: seq<Op>): AudioManager.Manager
    decreases |ops|
  {
    if ops == [] then AudioManager.Create(store)
    else Step(Run(store, ops[..|ops| - 1]), ops[|ops| - 1])
  }

  /** Every reachable controller state satisfies the invariant. */
  lemma {:induction false} RunValid(store: AudioManager.Stored, ops: seq<Op>)
    ensures AudioManager.Valid(Run(store, ops))
    decreases |ops|
  {
    if ops != [] {
      RunValid(store, ops[..|ops| - 1]);
    }
  }

  /** The store holds no gain outside [0,1]. */
  predicate StoreInUnitRange(store: AudioManager.Stored) {
    store.Saved? && store.volumes.Some? ==> InUnitRange(store.volumes.value)
  }

  /** Writes are clamped, so a session that starts from in-range gains never
      holds a table gain outside [0,1]. */
  lemma {:induction false} RunInUnitRange(store: AudioManager.Stored, ops: seq<Op>)
    requires StoreInUnitRange(store)
    ensures InUnitRange(Run(store, ops).volumes)
    decreases |ops|
  {
    if ops == [] {
      var r := AudioManager.Create(store);
      assert InUnitRange(Defaults);
      forall c | c in r.volumes
        ensures 0.0 <= r.volumes[c] <= 1.0
      {
      }
    } else {
      RunInUnitRange(store, ops[..|ops| - 1]);
    }
  }
}

=== FILE: text.dfy ===
/** Substring search on strings, as `String.prototype.includes` does it. */
module Text {

  /** `pat` occurs in `s` starting at index `i`. */
  ghost predicate OccursAt(s: string, pat: string, i: int) {
    0 <= i && i + |pat| <= |s| && s[i..i + |pat|] == pat
  }

  /** The reference definition: some index of `s` starts a copy of `pat`. */
  ghost predicate IsSubstring(pat: string, s: string) {
    exists i :: OccursAt(s, pat, i)
  }

  /** `s.includes(pat)`: scans `s` from the left, one start position at a time. */
  function Includes(s: string, pat: string): (b: bool)
    ensures b <==> IsSubstring(pat, s)
    decreases |s|
  {
    if |pat| > |s| then false
    else if s[..|pat|] == pat then
      assert OccursAt(s, pat, 0);
      true
    else
      ShiftStart(s, pat);
      Includes(s[1..], pat)
  }

  /** When `pat` does not start `s`, it occurs in `s` iff it occurs in the tail of `s`. */
  lemma ShiftStart(s: string, pat: string)
    requires |pat| <= |s| && s[..|pat|] != pat
    ensures IsSubstring(pat, s) <==> IsSubstring(pat, s[1..])
  {
    if IsSubstring(pat, s) {
      var i :| OccursAt(s, pat, i);
      assert i != 0;
      assert s[1..][i - 1..i - 1 + |pat|] == s[i..i + |pat|];
      assert OccursAt(s[1..], pat, i - 1);
    }
    if IsSubstring(pat, s[1..]) {
      var j :| OccursAt(s[1..], pat, j);
      assert s[1..][j..j + |pat|] == s[j + 1..j + 1 + |pat|];
      assert OccursAt(s, pat, j + 1);
    }
  }

  /** A string lacking some character of `pat` cannot contain `pat`. */
  lemma MissingCharExcludes(s: string, pat: string, c: char)
    requires c in pat && c !in s
    ensures !IsSubstring(pat, s)
  {
    var j :| 0 <= j < |pat| && pat[j] == c;
    forall i | 0 <= i <= |s| - |pat|
      ensures !OccursAt(s, pat, i)
    {
      assert s[i..i + |pat|][j] == s[i + j];
    }
  }
}

=== FILE: volumes.dfy ===
/**
 * The controller's volume table: a gain per category name, the clamp applied
 * on every write, the category a sound key falls into, and the effective gain
 * derived from both.
 */
module Volumes {
  import opened Text

  /** Category name to gain. Any string can be written as a category; the
      four below are present from construction on. */
  type VolumeTable = map<string, real>

  /** The table a fresh controller starts from. */
  const Defaults: VolumeTable :=
    map["master" := 1.0, "music" := 0.7, "sfx" := 0.8, "ui" := 0.6]

  /** The four categories every table of a live controller holds. */
  predicate HasCategories(t: VolumeTable) {
    "master" in t && "music" in t && "sfx" in t && "ui" in t
  }

  /** Every stored gain lies in [0,1]. */
  predicate InUnitRange(t: VolumeTable) {
    forall c :: c in t ==> 0.0 <= t[c] <= 1.0
  }

  /** `Math.max(0, Math.min(1, value))`. */
  function Clamp(value: real): (r: real)
    ensures 0.0 <= r <= 1.0
    ensures 0.0 <= value <= 1.0 ==> r == value
    ensures value < 0.0 ==> r == 0.0
    ensures value > 1.0 ==> r == 1.0
  {
    if value < 0.0 then 0.0 else if value > 1.0 then 1.0 else value
  }

  /** `volumes[category] || 0`: the stored gain, 0 for a category never written. */
  function Gain(t: VolumeTable, category: string): (r: real)
    ensures category in t ==> r == t[category]
    ensures category !in t ==> r == 0.0
  {
    if category in t then t[category] else 0.0
  }

  /** The mixing bucket a sound key falls into. */
  datatype Category = Music | Ui | Sfx

  function CategoryName(c: Category): string {
    match c
    case Music => "music"
    case Ui => "ui"
    case Sfx => "sfx"
  }

  /** Substring classification of a key; "music" is tested first, so it wins. */
  function Classify(key: string): (c: Category)
    ensures c == Music <==> IsSubstring("music", key)
    ensures c == Ui <==>
      !IsSubstring("music", key) &&
      (IsSubstring("button", key) || IsSubstring("menu", key) || IsSubstring("ui", key))
  {
    if Includes(key, "music") then Music
    else if Includes(key, "button") || Includes(key, "menu") || Includes(key, "ui") then Ui
    else Sfx
  }

  /** `getVolumeForSound`: the key's category gain times the master gain. */
  function VolumeForSound(t: VolumeTable, key: string): (r: real)
    ensures IsSubstring("music", key) ==> r == Gain(t, "music") * Gain(t, "master")
    ensures !IsSubstring("music", key) &&
      (IsSubstring("button", key) || IsSubstring("menu", key) || IsSubstring("ui", key))
      ==> r == Gain(t, "ui") * Gain(t, "master")
    ensures !IsSubstring("music", key) && !IsSubstring("button", key) &&
      !IsSubstring("menu", key) && !IsSubstring("ui", key)
      ==> r == Gain(t, "sfx") * Gain(t, "master")
  {
    Gain(t, CategoryName(Classify(key))) * Gain(t, "master")
  }

  /** With every gain in [0,1], so is the effective gain of any key. */
  lemma VolumeForSoundInUnitRange(t: VolumeTable, key: string)
    requires InUnitRange(t)
    ensures 0.0 <= VolumeForSound(t, key) <= 1.0
  {
    var g := Gain(t, CategoryName(Classify(key)));
    var m := Gain(t, "master");
    assert 0.0 <= g <= 1.0 && 0.0 <= m <= 1.0;
    ProductInUnitRange(g, m);
  }

  lemma ProductInUnitRange(a: real, b: real)
    requires 0.0 <= a <= 1.0 && 0.0 <= b <= 1.0
    ensures 0.0 <= a * b <= 1.0
  {
    assert 0.0 <= a * b;
    assert a * b <= b;
  }

  /** Every pattern of the classifier holds a 'u': a key without one is an effect. */
  lemma KeyWithoutUIsSfx(key: string)
    requires 'u' !in key
    ensures Classify(key) == Sfx
  {
    MissingCharExcludes(key, "music", 'u');
    MissingCharExcludes(key, "menu", 'u');
    MissingCharExcludes(key, "button", 'u');
    MissingCharExcludes(key, "ui", 'u');
  }

  /**
   * The fifteen keys the game registers fall into the groups its registration
   * list names: two music tracks, ten effects, three UI cues. "menu-music"
   * contains both "menu" and "music" and is a music track.
   */
  lemma MusicKeysClassification()
    ensures forall k :: k in MusicKeys ==> Classify(k) == Music
  {
    assert OccursAt("menu-music", "music", 5);
    assert OccursAt("game-music", "music", 5);
  }

  lemma SfxKeysClassification()
    ensures forall k :: k in SfxKeys ==> Classify(k) == Sfx
  {
    assert forall k :: k in SfxKeys && k != "power-up" ==> 'u' !in k;
    forall k | k in SfxKeys && k != "power-up"
      ensures Classify(k) == Sfx
    {
      KeyWithoutUIsSfx(k);
    }
    // "power-up" has a 'u' but no 'm', 'b' or 'i'.
    MissingCharExcludes("power-up", "music", 'm');
    MissingCharExcludes("power-up", "menu", 'm');
    MissingCharExcludes("power-up", "button", 'b');
    MissingCharExcludes("power-up", "ui", 'i');
  }

  lemma UiKeysClassification()
    ensures forall k :: k in UiKeys ==> Classify(k) == Ui
  {
    forall k | k in UiKeys
      ensures Classify(k) == Ui
    {
      if k == "menu-transition" {
        MissingCharExcludes(k, "music", 'c');
        assert OccursAt(k, "menu", 0);
      } else {
        MissingCharExcludes(k, "music", 'm');
        assert OccursAt(k, "button", 0);
      }
    }
  }

  /** The keys `createSounds` registers, in order: the music tracks, then the
      effects, then the UI cues. */
  const SoundKeys: seq<string> := MusicKeys + SfxKeys + UiKeys

  const MusicKeys: seq<string> := ["menu-music", "game-music"]

  const SfxKeys: seq<string> := [
    "gem-select", "gem-swap", "match-3", "match-4", "match-5",
    "cascade", "achievement", "power-up", "level-complete", "game-over"
  ]

  const UiKeys: seq<string> := ["button-hover", "button-click", "menu-transition"]
}

=== FILE: wrappers.dfy ===
/** Optional values: the model's stand-in for JavaScript's `undefined`/`null`. */
module Wrappers {

  datatype Option<+T> = None | Some(value: T) {

    /** The wrapped value, or `default` when there is none. */
    function GetOr(default: T): T {
      match this
      case Some(v) => v
      case None => default
    }
  }
}
